=== FILE: README.md ===
# ESP32FwUploader upload state machine, in Dafny

This project models the core of the ESP32FwUploader Arduino library. The library exposes an HTTP endpoint that
accepts a streamed firmware or filesystem image and passes it to the platform's `Update` driver. It can then
restart the device on a timer. The model covers:

- the **chunk handler**, called once per upload event (`UPLOAD_FILE_START`, `UPLOAD_FILE_WRITE`,
  `UPLOAD_FILE_END`, `UPLOAD_FILE_ABORTED`);
- the **completion handler**, which answers the request;
- the **reboot tick** (`loop()`/`handleReboot()`);
- the **error store** (`setError` and the getters);
- the **authentication switch** (`setAuth`/`clearAuth`);
- the controller's default state.

The model is functional. A `Controller` record holds all of the class's private state. It also holds the two
function-local statics of the chunk handler (`totalReceived` and the first-chunk flag), the abstract driver, and
a log of the observer notifications delivered so far. Each event is a pure function from one controller to the
next. Time is an explicit `now` parameter. Anything the environment decides enters as a parameter:

- what the driver answers (`DriverReply`);
- whether the request carries valid credentials (`authorized`);
- the current time.

Files and modules:

- `types.dfy` (`Types`): the `ESP32Fw_Mode` and `ESP32Fw_Error` enumerations and mode resolution.
- `decimal.dfy` (`Decimal`): Arduino's decimal rendering of a count, which the write-failure message uses.
- `driver.dfy` (`Driver`): the abstract `Update` driver. It is an error flag plus a log of
  begin/write/end/abort calls.
- `platform.dfy` (`Platform`): the ESP8266 and ESP32 builds, region capacities and the size pre-check.
- `controller.dfy` (`Controller`): the controller's state, defaults, observers, error store, auth switch and
  reboot tick.
- `upload.dfy` (`Upload`): the chunk handler, the completion handler and the web-page handler.
- `session.dfy` (`Session`): whole uploads. It holds the invariants kept across events, the behaviours that
  only show over several events, and a loop-based `UploadImage` proved equal to the functional composition.

The driver contract the model assumes is:

- a call that fails raises the driver's error flag;
- a successful `begin` lowers the flag;
- `abort` raises the flag (ESP32's `abort` records `UPDATE_ERROR_ABORT`);
- any other successful call leaves the flag as it was.

The model follows the code where the code departs from its own comments or where one handler does not do
what another assumes. Each point below names the lemma or contract that states it, except the last, which
is a modelling choice:

- **Two different first-chunk flags.** The START branch declares and resets its own `static bool firstWrite`.
  The WRITE branch tests a different static. As a result, only the first write event since boot is checked
  for emptiness (`EmptyChunkCheckedOnlyOnceSinceBoot`, `SecondUploadEmptyChunkAccepted`).
- **Writes continue after a failure.** Nothing consults the error store before calling `Update.write`. A full
  write still advances the counter while an error is recorded (`WritesContinueAfterFailure`).
- **The completion handler decides success from `Update.hasError()` alone.** When the driver reports an
  error, it overwrites any recorded error with `UpdateEndFailed`. On success, the store keeps whatever the
  chunk handler recorded (`CompletionIgnoresErrorStore`).
- **An ESP8266 `FileTooLarge` rejection can still report "OK" and arm a reboot.** The rejection never calls
  `begin`, but the upload's data chunks and its END event still reach the driver. The completion then reports
  success if the driver accepts the writes and answers `end(true)` with success although `begin` never ran,
  and no error flag is left over from an earlier upload. Nothing lowers such a flag, because `begin` is never
  called. If `end` fails, the answer is "FAIL" (`OversizeUploadCanReportOk`). A flag left raised by an
  earlier upload also gives "FAIL" (`OversizeUploadAfterDriverErrorFails`).
- **`onEnd` fires from the completion handler, not from the END branch.** `OnFileEnd`'s contract leaves the
  notification log alone on success, and `Complete`'s contract appends exactly one `Ended(success)`.
- **The upload handler performs no access check** (`src/ESP32FwUploader.cpp:55-188`). The only check lives
  in the completion handler, which the server calls after the last chunk event. An unauthorised client's
  image is therefore opened, written and finalised on the driver before the client is challenged
  (`UnauthorizedUploadStillReachesFlash`).
- **A pending reboot is never cancelled.** A new upload started before the reboot is due does not stop it
  (`PendingRebootSurvives`).
- **The ESP8266 filesystem branch uses an undefined identifier.** It compares the mode against
  `MYOTA_MODE_FILESYSTEM`, which the library does not define, so that build does not compile as written.
  As a modelling choice, the model reads the test as a comparison with `ESP32FW_MODE_FILESYSTEM`, and the
  platform is a parameter.

## Model

| member | source | states |
|---|---|---|
| Types.ModeCode | src/ESP32FwUploader.h:38-41 | a mode's enumerator value is 0 or 1 |
| Types.ModeFromCode | src/ESP32FwUploader.h:38-41 | each of the values 0 and 1 names the mode whose code it is |
| Types.ModeCodeBijection | src/ESP32FwUploader.h:38-41 | the modes are exactly FIRMWARE = 0 and FILESYSTEM = 1, and codes identify modes |
| Types.ErrorCode | src/ESP32FwUploader.h:43-52 | every error kind's value lies in 0..7, and the value is 0 exactly for NONE |
| Types.ErrorFromCode | src/ESP32FwUploader.h:43-52 | every value in 0..7 names the error kind whose code it is |
| Types.ErrorCodeBijection | src/ESP32FwUploader.h:43-52 | the eight error kinds correspond one-to-one to 0..7, so they are distinct and the set is closed |
| Types.ModeArg | src/web_ui.cpp:211-218 | the mode parameter the web page sends is never empty |
| Types.ResolveMode | src/ESP32FwUploader.cpp:74-83 | specified by `ResolveModeCharacterised` (next row) |
| Types.ResolveModeCharacterised | src/ESP32FwUploader.cpp:74-83 | resolution is total: exactly "filesystem" selects the filesystem, anything else (including "") selects firmware, and the page's own values round-trip |
| Decimal.ToDecimal | src/ESP32FwUploader.cpp:145-146 | the rendered count is non-empty, all digits, with a leading zero only for 0 |
| Decimal.DecimalRoundTrip | src/ESP32FwUploader.cpp:145-146 | reading the rendered digits back gives the original count |
| Platform.SketchSpace | src/ESP32FwUploader.cpp:99 | `(free - 0x1000) & 0xFFFFF000` is a multiple of 4096, the largest one at most `free - 0x1000` when `free >= 0x1000`, and wraps to 0xFFFFF000 below that |
| Platform.Admit | src/ESP32FwUploader.cpp:89-111 | the pre-check refuses exactly a declared non-zero size beyond the region's capacity (ESP8266 only), with a message; otherwise `begin` gets the region's capacity and command |
| Platform.AdmitRefusesExactlyOversize | src/ESP32FwUploader.cpp:91-103 | on ESP8266 the refusal condition is `totalSize > 0 && totalSize > capacity` for the selected region; ESP32 never refuses |
| Controller.Fire | src/ESP32FwUploader.h:89-93 | an observer is called once when its hook is set and not at all when unset; nothing else changes |
| Controller.Register | src/ESP32FwUploader.cpp:225-239 | registering sets only the named hook and leaves every other hook and field alone |
| Controller.SetError | src/ESP32FwUploader.cpp:260-267 | both kind and message are overwritten, the error observer is called exactly once, nothing else changes |
| Controller.SetAuth | src/ESP32FwUploader.cpp:195-200 | authentication is enabled iff both user name and password are non-empty; only the credentials change |
| Controller.ClearAuth | src/ESP32FwUploader.cpp:202-207 | authentication is off and the credentials are empty afterwards; nothing else changes |
| Controller.SetAutoReboot | src/ESP32FwUploader.cpp:209-212 | only the auto-reboot switch changes |
| Controller.Initial | src/ESP32FwUploader.h:76-93 | specified by `InitialDefaults` (next row) |
| Controller.InitialDefaults | src/ESP32FwUploader.h:76-93 | a fresh controller reports NONE with "", has auto reboot on, no reboot pending at time 0, authentication off, every hook unset, and a consistent state |
| Controller.LastError | src/ESP32FwUploader.cpp:241-243 | specified by `InitialDefaults`, `SetErrorLastWins` and `Session.ErrorClearedOnlyByStart`: NONE at first, the latest recorded kind afterwards, cleared only by START |
| Controller.LastErrorMessage | src/ESP32FwUploader.cpp:245-247 | specified by the same lemmas: "" at first, the latest recorded message afterwards |
| Controller.SetErrorLastWins | src/ESP32FwUploader.cpp:260-267 | a second error replaces the first in both fields, and the observer hears both, in order |
| Controller.SetErrorKeepsValid | src/ESP32FwUploader.cpp:260-267 | recording a real error with a message keeps "NONE iff empty message" |
| Controller.AuthToggles | src/ESP32FwUploader.cpp:195-207 | `clearAuth` always disables authentication; `setAuth` enables it iff both strings are non-empty |
| Controller.HandleReboot | src/ESP32FwUploader.cpp:253-257 | specified by `HandleRebootMonotone` (next row) and `Session.RebootOnlyAfterSuccess` |
| Controller.HandleRebootMonotone | src/ESP32FwUploader.cpp:253-257 | the tick never restarts without a pending reboot, and once due stays due |
| Upload.WriteFailureMessage | src/ESP32FwUploader.cpp:141-153 | the short-write message starts with its prefix and carries the driver's reason whenever it has a real one |
| Upload.MismatchQuotesExpected | src/ESP32FwUploader.cpp:141-146 | with no real driver reason, the text right after "(expected: " is all digits and reads back as the expected count |
| Upload.MismatchQuotesWritten | src/ESP32FwUploader.cpp:141-146 | likewise the text right after ", written: ", placed after the expected count, reads back as the written count |
| Upload.MismatchQuotesFreeHeap | src/ESP32FwUploader.cpp:141-146 | likewise the text right after "), Free heap: ", placed after both counts, reads back as the free heap |
| Upload.OnFileStart | src/ESP32FwUploader.cpp:59-123 | START zeroes the counter and clears the error store, calls onStart once, and leaves the WRITE branch's flag alone. An oversize declared size gives `FileTooLarge` with no `begin`. Otherwise `begin` is called once with the mode's capacity and region; its failure gives `UpdateBeginFailed` with no abort |
| Upload.OnFileWrite | src/ESP32FwUploader.cpp:125-170 | An empty first chunk since boot gives `InvalidFile`, one abort and no write. Otherwise the chunk is written: a full write adds exactly its length to the counter and calls onProgress(counter, total); a short write gives `UpdateWriteFailed`, one abort and an unchanged counter |
| Upload.OnFileEnd | src/ESP32FwUploader.cpp:171-183 | `end(true)` is called once; its failure gives `UpdateEndFailed` with the driver's reason and no abort; success leaves the error store alone |
| Upload.OnFileAborted | src/ESP32FwUploader.cpp:184-187 | ABORTED records `NetworkError` / "Upload was aborted" and makes no driver call |
| Upload.Handle | src/ESP32FwUploader.cpp:55-188 | chunk events never touch configuration, hooks or a pending reboot; they only append to the driver and notification logs; only START can lower the counter |
| Upload.Complete | src/ESP32FwUploader.cpp:20-54 | An unauthorised request gets a challenge and `AuthFailed`. Otherwise the response is status 200 with "OK" iff the driver has no error, else "FAIL" with `UpdateEndFailed`. onEnd(success) fires once. A reboot is armed at now + 2000 iff success and auto reboot, overwriting the old time |
| Upload.ServeInterface | src/ESP32FwUploader.cpp:10-17 | the page is served unchanged unless authentication is on and the request is unauthorised, which records `AuthFailed` and challenges |
| Session.FullWritesAccumulate | src/ESP32FwUploader.cpp:139-163 | after N full writes the counter has grown by exactly the sum of chunk lengths, the error store is unchanged and the driver got one write per chunk |
| Session.WritesNeverDecrease | src/ESP32FwUploader.cpp:139-163 | whatever the driver answers, write events never lower the counter |
| Session.DriverErrorSticks | src/ESP32FwUploader.cpp:139-156 | once the driver has an error, later writes never clear it |
| Session.ShortWriteFailsUpload | src/ESP32FwUploader.cpp:127-156 | one short write anywhere in an upload, or an empty first chunk since boot, leaves the driver's error flag raised at the end of the writes |
| Session.ApplyKeepsValid | src/ESP32FwUploader.cpp:20-188 | every event and completion keeps "NONE iff empty message" and "pending reboot iff due time set" |
| Session.RunKeepsValid | src/ESP32FwUploader.cpp:20-188 | any sequence of events and completions from a consistent controller keeps it consistent |
| Session.ErrorClearedOnlyByStart | src/ESP32FwUploader.cpp:61-63 | only a START event can clear a recorded error; reading it never does |
| Session.PendingRebootSurvives | src/ESP32FwUploader.cpp:49-54 | a pending reboot is never cancelled, and chunk events of a later upload do not move it |
| Session.RunOnlyAppends | src/ESP32FwUploader.cpp:20-188 | any run only appends to the driver's call log and to the notification log |
| Session.EmptyFirstChunkAbortsOnce | src/ESP32FwUploader.cpp:127-135 | an empty first chunk adds exactly one abort and nothing else to the driver log, and the counter is unchanged |
| Session.ShortWriteAbortsOnce | src/ESP32FwUploader.cpp:139-156 | a short write adds exactly one abort to the driver log and leaves the counter unchanged |
| Session.EmptyChunkCheckedOnlyOnceSinceBoot | src/ESP32FwUploader.cpp:127-135 | once any write has been seen, a later upload's empty first chunk is written to the driver and never yields `InvalidFile` |
| Session.SecondUploadEmptyChunkAccepted | src/ESP32FwUploader.cpp:127-135 | concrete case: after one complete upload, a second upload's empty first chunk leaves the error store at NONE |
| Session.WritesContinueAfterFailure | src/ESP32FwUploader.cpp:139-158 | with an error recorded, a later chunk still reaches `Update.write`, and a full write still advances the counter |
| Session.CompletionIgnoresErrorStore | src/ESP32FwUploader.cpp:26-36 | a driver error always ends as `UpdateEndFailed`, replacing any earlier error; a clean driver answers "OK" whatever the store holds |
| Session.OversizeUploadCanReportOk | src/ESP32FwUploader.cpp:26-183 | on ESP8266, an oversize upload refused before `begin` sends its writes and `end(true)` to the driver with no `begin`. If `end` succeeds, the answer is "OK" and a reboot is armed while the store says `FileTooLarge`; if `end` fails, the answer is "FAIL" with `UpdateEndFailed` |
| Session.OversizeUploadAfterDriverErrorFails | src/ESP32FwUploader.cpp:26-183 | on ESP8266, when a refused oversize upload starts with the driver's error flag still raised from an earlier upload, the flag is never lowered (no `begin`), so the answer is "FAIL" with `UpdateEndFailed` whatever the writes and `end` report |
| Session.UnauthorizedUploadStillReachesFlash | src/ESP32FwUploader.cpp:20-188 | on either platform, an unauthorised upload that passes the size pre-check is begun with the region's capacity and command, written and finalised on the driver before the challenge; no reboot is armed |
| Session.RebootOnlyAfterSuccess | src/ESP32FwUploader.cpp:49-54 | a reboot is armed only by an "OK" completion with auto reboot on; once armed, the tick restarts exactly from now + 2000 |
| Session.RearmingOverwrites | src/ESP32FwUploader.cpp:50-54 | a second successful completion moves the due time to its own now + 2000 instead of stacking |
| Session.UploadImage | src/ESP32FwUploader.cpp:55-188 | the loop that feeds a whole upload gives the same result as the event-by-event definition; a short write ends in "FAIL", and a clean upload in "OK" with the counter at the image length |
| Session.UploadFailsAfterShortWrite | src/ESP32FwUploader.cpp:20-188 | a whole upload with any short write ends in "FAIL" with `UpdateEndFailed`, whatever begin and end answered |
| Session.CleanUploadSucceeds | src/ESP32FwUploader.cpp:20-188 | a fitting, opened, fully written, finalised upload answers "OK" with no error, the counter at the image length, and a reboot armed when auto reboot is on |
| Session.TwoChunkFirmwareScenario | src/ESP32FwUploader.cpp:139-163 | two 4096-byte chunks give a counter of 8192, no error at any point, one onEnd(true) and a reboot due at now + 2000 |
| Session.EmptyFilesystemUploadScenario | src/ESP32FwUploader.cpp:127-135 | a filesystem upload with an empty first chunk logs only begin and one abort, with `InvalidFile` |
| Session.OversizeFirmwareScenario | src/ESP32FwUploader.cpp:99-103 | a 10,000,000-byte image against a 999,424-byte sketch capacity is refused with no driver call |

## Left out

- The web interface (`web_ui.cpp`, `web_ui.h`, `getWebUIHTML`, colours, dark mode). It is presentation only. The
  served page is the `WebInterface` response.
- HTTP server plumbing: route registration in `begin(server)`, `_server->authenticate`,
  `requestAuthentication` and `_server->send`. Authentication is the boolean `authorized`. A challenge is the
  `AuthChallenge` response, and a sent body is `PlainText(status, body)`.
- The `Update` driver's internals (erase, program, verify, the text of `errorString`). The driver is abstract,
  under the contract stated above. Its reason text is an opaque string supplied by the environment.
- `ESP.restart`. `HandleReboot` returns whether the device restarts. Nothing follows a restart, so "fires once"
  needs no disarming.
- `ESP.getFreeHeap`, `ESP.getFreeSketchSpace` and the linker's filesystem bounds. These are platform readings
  and enter as parameters (`DriverReply.freeHeap`, `Platform.Esp8266`).
- `close_all_fs()`, which the ESP8266 filesystem branch runs before `begin`. It is a platform side effect with
  no effect on the handler's state.
- Serial logging (`logMessage`, `logError`) and the progress log line. The log line computes a float percentage
  and can divide by a zero total size. Also left out: `setDebug` and `setDarkMode`, which only affect logging
  and the page.
- The START branch's own `static bool firstWrite`. It is written but never read, so it has no observable
  effect. The WRITE branch's flag is modelled.
- `UPDATE_SIZE_UNKNOWN` is the `SizeUnknown` constructor rather than the number 0xFFFFFFFF.
- `millis()` wrap-around. Time is an unbounded natural, so `millis() + 2000` and the `>=` comparison in the tick
  are modelled without 32-bit overflow.
- `Upload.OnFileWrite`: `totalReceived` is a 32-bit `size_t` in the library. The model's counter is unbounded
  because the flash regions are far below 4 GiB.
- The bodies of the observer callbacks. These are code the embedding application supplies. Each call appears as
  one `Notification` in the controller's log.

=== FILE: controller.dfy ===
/** The uploader controller's own state: configuration (credentials,
    auto-reboot), the pending reboot, the error store, the registered
    observers, the two handler-lifetime statics, the driver, and the
    notifications delivered to observers so far. */
module Controller {
  import opened Types
  import opened Driver

  /** The four observer hooks; a hook either holds a callback or is unset. */
  datatype Hook = StartHook | ProgressHook | EndHook | ErrorHook

  /** Which hooks currently hold a callback. */
  datatype Callbacks = Callbacks(start: bool, progress: bool, end: bool, error: bool) {
    predicate Holds(h: Hook) {
      match h
      case StartHook => start
      case ProgressHook => progress
      case EndHook => end
      case ErrorHook => error
    }
  }

  const NoCallbacks: Callbacks := Callbacks(false, false, false, false)

  /** One call of an observer: `onStart()`, `onProgress(current, total)`,
      `onEnd(success)` or `onError(kind, message)`. */
  datatype Notification =
    | Started
    | Progress(current: nat, total: nat)
    | Ended(success: bool)
    | ErrorRaised(kind: ErrorKind, message: string)

  function HookOf(n: Notification): Hook {
    match n
    case Started => StartHook
    case Progress(_, _) => ProgressHook
    case Ended(_) => EndHook
    case ErrorRaised(_, _) => ErrorHook
  }

  /** Delay between a successful upload and the restart, in milliseconds. */
  const RebootDelay: nat := 2000

  /** The controller. `totalReceived` and `firstWrite` are function-local
      statics of the upload handler in the library, so they live as long as
      the controller; `firstWrite` is the flag the WRITE branch tests, which
      the START branch never resets. */
  datatype Controller = Controller(
    authenticate: bool,
    username: string,
    password: string,
    autoReboot: bool,
    rebootRequested: bool,
    rebootTime: nat,
    lastError: ErrorKind,
    lastErrorMessage: string,
    callbacks: Callbacks,
    totalReceived: nat,
    firstWrite: bool,
    flash: Flash,
    notices: seq<Notification>)

  /** A freshly constructed controller, with the defaults the class declares. */
  function Initial(): Controller {
    Controller(
      authenticate := false,
      username := "",
      password := "",
      autoReboot := true,
      rebootRequested := false,
      rebootTime := 0,
      lastError := NoError,
      lastErrorMessage := "",
      callbacks := NoCallbacks,
      totalReceived := 0,
      firstWrite := true,
      flash := Untouched,
      notices := [])
  }

  /** Calls the observer for `n` if one is registered; an unset hook is a
      no-op. */
  function Fire(c: Controller, n: Notification): (r: Controller)
    ensures r.notices == c.notices + (if c.callbacks.Holds(HookOf(n)) then [n] else [])
    ensures r == c.(notices := r.notices)
  {
    if c.callbacks.Holds(HookOf(n)) then c.(notices := c.notices + [n]) else c
  }

  /** Registers (`present`) or clears the callback of one hook. */
  function Register(c: Controller, h: Hook, present: bool): (r: Controller)
    ensures r.callbacks.Holds(h) == present
    ensures forall g :: g != h ==> r.callbacks.Holds(g) == c.callbacks.Holds(g)
    ensures r == c.(callbacks := r.callbacks)
  {
    var cb := c.callbacks;
    var cb' := match h
      case StartHook => cb.(start := present)
      case ProgressHook => cb.(progress := present)
      case EndHook => cb.(end := present)
      case ErrorHook => cb.(error := present);
    c.(callbacks := cb')
  }

  /** Records an error: both the kind and the message are overwritten, the
      error observer is called exactly once, and nothing else changes. */
  function SetError(c: Controller, kind: ErrorKind, message: string): (r: Controller)
    ensures r.lastError == kind && r.lastErrorMessage == message
    ensures r.notices == c.notices + (if c.callbacks.error then [ErrorRaised(kind, message)] else [])
    ensures r == c.(lastError := kind, lastErrorMessage := message, notices := r.notices)
  {
    Fire(c.(lastError := kind, lastErrorMessage := message), ErrorRaised(kind, message))
  }

  /** `getLastError()`. */
  function LastError(c: Controller): ErrorKind {
    c.lastError
  }

  /** `getLastErrorMessage()`. */
  function LastErrorMessage(c: Controller): string {
    c.lastErrorMessage
  }

  /** Stores the credentials; authentication is enabled exactly when both are
      non-empty. */
  function SetAuth(c: Controller, username: string, password: string): (r: Controller)
    ensures r.authenticate <==> |username| > 0 && |password| > 0
    ensures r.username == username && r.password == password
    ensures r == c.(authenticate := r.authenticate, username := username, password := password)
  {
    c.(username := username, password := password,
       authenticate := |username| > 0 && |password| > 0)
  }

  /** Disables authentication and forgets the credentials. */
  function ClearAuth(c: Controller): (r: Controller)
    ensures !r.authenticate && r.username == "" && r.password == ""
    ensures r == c.(authenticate := false, username := "", password := "")
  {
    c.(authenticate := false, username := "", password := "")
  }

  /** Turns the automatic restart after a successful upload on or off. */
  function SetAutoReboot(c: Controller, enable: bool): (r: Controller)
    ensures r.autoReboot == enable
    ensures r == c.(autoReboot := enable)
  {
    c.(autoReboot := enable)
  }

  /** The periodic tick (`loop()` calls `handleReboot()`): the device restarts
      once a reboot is pending and its time has come. */
  function HandleReboot(c: Controller, now: nat): (restart: bool)
  {
    c.rebootRequested && now >= c.rebootTime
  }

  /** The error store is consistent: the kind is `NoError` exactly when the
      message is empty. */
  predicate ErrorConsistent(c: Controller) {
    c.lastError == NoError <==> c.lastErrorMessage == ""
  }

  /** The reboot fields are consistent: no reboot pending means the time is
      still its initial 0; a pending reboot lies at least the delay after the
      time origin. */
  predicate RebootConsistent(c: Controller) {
    if c.rebootRequested then c.rebootTime >= RebootDelay else c.rebootTime == 0
  }

  predicate Valid(c: Controller) {
    ErrorConsistent(c) && RebootConsistent(c)
  }

  /** A fresh controller reports no error with an empty message, has auto
      reboot on and no reboot pending at time 0 (so the tick never restarts
      it), has authentication off, and every observer unset (so firing any
      notification leaves the log as it was). */
  lemma InitialDefaults(now: nat, n: Notification)
    ensures LastError(Initial()) == NoError && LastErrorMessage(Initial()) == ""
    ensures Initial().autoReboot && !Initial().rebootRequested && Initial().rebootTime == 0
    ensures !HandleReboot(Initial(), now)
    ensures !Initial().authenticate
    ensures Fire(Initial(), n) == Initial()
    ensures Valid(Initial())
  {
  }

  /** The most recent error wins: a second `setError` replaces both fields of
      the first, and each call notifies the observer once. */
  lemma SetErrorLastWins(c: Controller, k1: ErrorKind, m1: string, k2: ErrorKind, m2: string)
    ensures var r := SetError(SetError(c, k1, m1), k2, m2);
      LastError(r) == k2 && LastErrorMessage(r) == m2 &&
      r.notices == c.notices +
        (if c.callbacks.error then [ErrorRaised(k1, m1), ErrorRaised(k2, m2)] else [])
  {
  }

  /** Recording a real error with a non-empty message keeps the store
      consistent. */
  lemma SetErrorKeepsValid(c: Controller, kind: ErrorKind, message: string)
    requires Valid(c)
    requires kind != NoError && |message| > 0
    ensures Valid(SetError(c, kind, message))
  {
  }

  /** `clearAuth` disables authentication whatever came before, and
      `setAuth` with an empty user name or password does too. */
  lemma AuthToggles(c: Controller, u: string, p: string)
    ensures !ClearAuth(SetAuth(c, u, p)).authenticate
    ensures SetAuth(ClearAuth(c), u, p).authenticate <==> u != "" && p != ""
    ensures !SetAuth(c, "", p).authenticate && !SetAuth(c, u, "").authenticate
  {
  }

  /** The tick restarts exactly when a reboot is pending and due; a later
      tick never un-dues it. */
  lemma HandleRebootMonotone(c: Controller, t1: nat, t2: nat)
    requires t1 <= t2
    ensures HandleReboot(c, t1) ==> HandleReboot(c, t2)
    ensures !c.rebootRequested ==> !HandleReboot(c, t2)
  {
  }
}

=== FILE: decimal.dfy ===
/** Decimal rendering of an unsigned count, as Arduino's `String(size_t)` does
    when the write-failure message quotes the expected and written sizes. */
module Decimal {

  function DigitChar(d: nat): (c: char)
    requires d < 10
    ensures '0' <= c <= '9'
  {
    ('0' as int + d) as char
  }

  function CharDigit(c: char): (d: nat)
    requires '0' <= c <= '9'
    ensures d < 10
    ensures DigitChar(d) == c
  {
    c as int - '0' as int
  }

  predicate IsDigits(s: string) {
    forall i :: 0 <= i < |s| ==> '0' <= s[i] <= '9'
  }

  /** The base-10 text of `n`: only digits, never empty, and a leading zero
      only for zero itself. */
  function ToDecimal(n: nat): (s: string)
    ensures |s| > 0 && IsDigits(s)
    ensures s[0] == '0' <==> n == 0
    ensures n < 10 <==> |s| == 1
    decreases n
  {
    if n < 10 then [DigitChar(n)]
    else ToDecimal(n / 10) + [DigitChar(n % 10)]
  }

  /** The value a string of digits denotes (the reference reading of a decimal
      numeral). */
  function FromDecimal(s: string): (n: nat)
    requires IsDigits(s)
    decreases |s|
  {
    if |s| == 0 then 0
    else 10 * FromDecimal(s[..|s| - 1]) + CharDigit(s[|s| - 1])
  }

  /** Reading back the rendered text gives the number that was rendered, so
      distinct counts are always quoted by distinct texts. */
  lemma {:induction false} DecimalRoundTrip(n: nat)
    ensures FromDecimal(ToDecimal(n)) == n
    decreases n
  {
    if n >= 10 {
      DecimalRoundTrip(n / 10);
      var s := ToDecimal(n);
      assert s[..|s| - 1] == ToDecimal(n / 10);
    }
  }
}

=== FILE: driver.dfy ===
/** The platform `Update` driver, seen from the outside: an error flag and the
    log of the calls the uploader has made on it. What the flash hardware does
    with each call is the environment's business; its answers arrive as a
    `DriverReply`. */
module Driver {

  /** The size argument of `Update.begin`: a byte capacity, or ESP32's
      UPDATE_SIZE_UNKNOWN. */
  datatype BeginSize = Bytes(n: nat) | SizeUnknown

  /** The command argument of `Update.begin`: U_FLASH (application image),
      U_FS (ESP8266 filesystem) or U_SPIFFS (ESP32 filesystem). */
  datatype Region = UFlash | UFs | USpiffs

  /** One call on the driver, as the uploader issued it. */
  datatype DriverCall =
    | BeginCall(size: BeginSize, region: Region)
    | WriteCall(len: nat)
    | EndCall(evenIfRemaining: bool)
    | AbortCall

  /** The driver: `hasError` is what `Update.hasError()` answers; `calls` is
      every call made so far, oldest first. */
  datatype Flash = Flash(hasError: bool, calls: seq<DriverCall>)

  /** The driver before the uploader has touched it. */
  const Untouched: Flash := Flash(false, [])

  /** The environment's answers for one chunk event: whether `begin` and `end`
      succeed, how many bytes `write` accepts, the text `Update.errorString()`
      reports afterwards, and what `ESP.getFreeHeap()` reports. */
  datatype DriverReply = DriverReply(
    beginOk: bool,
    written: nat,
    endOk: bool,
    reason: string,
    freeHeap: nat)

  // The assumed driver contract: a call that fails raises the error flag, a
  // successful `begin` lowers it, `abort` raises it, and any other successful
  // call leaves it as it was.

  function CallBegin(f: Flash, size: BeginSize, region: Region, ok: bool): Flash {
    Flash(!ok, f.calls + [BeginCall(size, region)])
  }

  function CallWrite(f: Flash, len: nat, written: nat): Flash {
    Flash(f.hasError || written != len, f.calls + [WriteCall(len)])
  }

  function CallEnd(f: Flash, ok: bool): Flash {
    Flash(f.hasError || !ok, f.calls + [EndCall(true)])
  }

  function CallAbort(f: Flash): Flash {
    Flash(true, f.calls + [AbortCall])
  }

  /** How many entries of a call log are `abort` calls. */
  function AbortCount(calls: seq<DriverCall>): (k: nat)
    ensures k <= |calls|
  {
    if |calls| == 0 then 0
    else AbortCount(calls[..|calls| - 1]) + (if calls[|calls| - 1].AbortCall? then 1 else 0)
  }

  /** Counting aborts over a log extended by some calls adds the aborts among
      the new calls. */
  lemma {:induction false} AbortCountAppend(a: seq<DriverCall>, b: seq<DriverCall>)
    ensures AbortCount(a + b) == AbortCount(a) + AbortCount(b)
    decreases |b|
  {
    if |b| > 0 {
      var ab := a + b;
      assert ab[..|ab| - 1] == a + b[..|b| - 1];
      AbortCountAppend(a, b[..|b| - 1]);
    } else {
      assert a + b == a;
    }
  }
}

=== FILE: platform.dfy ===
/** The two hardware targets and what `begin` is told on each: the capacity of
    the region the mode selects, and whether a declared upload size fits it. */
module Platform {
  import opened Types
  import opened Driver

  /** 2^32: `uint32_t` and `size_t` are 32 bits wide on both targets. */
  const Uint32Modulus: nat := 0x1_0000_0000

  type Uint32 = x: nat | x < Uint32Modulus

  /** One flash sector, and the safety margin kept below the free sketch space. */
  const SectorSize: nat := 0x1000

  /** The build target. On ESP8266 the capacities come from the free sketch
      space (`ESP.getFreeSketchSpace()`) and the linker's filesystem bounds
      (`_FS_end - _FS_start`); ESP32 announces no size at all. */
  datatype Platform =
    | Esp8266(freeSketchSpace: Uint32, fsSize: nat)
    | Esp32

  /** `(freeSketchSpace - 0x1000) & 0xFFFFF000` in 32-bit unsigned arithmetic:
      the subtraction wraps modulo 2^32, and the mask clears the low twelve
      bits, i.e. rounds down to a whole sector. With at least one sector free
      the result is the largest sector multiple that leaves a sector spare;
      with less, the subtraction wraps and the capacity is nearly 4 GiB. */
  function SketchSpace(free: Uint32): (cap: Uint32)
    ensures cap % SectorSize == 0
    ensures free >= SectorSize ==> cap <= free - SectorSize < cap + SectorSize
    ensures free < SectorSize ==> cap == Uint32Modulus - SectorSize
  {
    var d := (free - SectorSize) % Uint32Modulus;
    d - d % SectorSize
  }

  /** The size argument `begin` receives for a mode. */
  function Capacity(p: Platform, m: Mode): BeginSize {
    match p
    case Esp8266(free, fs) =>
      if m == Filesystem then Bytes(fs) else Bytes(SketchSpace(free))
    case Esp32 => SizeUnknown
  }

  /** The command argument `begin` receives for a mode. */
  function RegionFor(p: Platform, m: Mode): Region {
    if m == Firmware then UFlash
    else if p.Esp8266? then UFs
    else USpiffs
  }

  /** Whether a declared upload size passes the pre-check: an undeclared size
      (0) always does, and so does anything when the capacity is unknown. */
  predicate Fits(totalSize: nat, cap: BeginSize) {
    match cap
    case Bytes(n) => totalSize == 0 || totalSize <= n
    case SizeUnknown => true
  }

  /** The outcome of the pre-check: refuse with a message, or go on to call
      `begin` with these arguments. */
  datatype Admission =
    | TooLarge(message: string)
    | Open(size: BeginSize, region: Region)

  /** The size pre-check run at the start of an upload. Only the ESP8266 build
      has one; it refuses a declared size that exceeds the region, naming the
      partition in its message, and otherwise opens the region at its full
      capacity. */
  function Admit(p: Platform, m: Mode, totalSize: nat): (a: Admission)
    ensures a.TooLarge? <==> !Fits(totalSize, Capacity(p, m))
    ensures a.TooLarge? ==> p.Esp8266? && totalSize > 0 && |a.message| > 0
    ensures a.Open? ==> a.size == Capacity(p, m) && a.region == RegionFor(p, m)
    ensures p.Esp32? ==> a == Open(SizeUnknown, if m == Filesystem then USpiffs else UFlash)
  {
    if Fits(totalSize, Capacity(p, m)) then Open(Capacity(p, m), RegionFor(p, m))
    else if m == Filesystem then TooLarge("File too large for filesystem partition")
    else TooLarge("File too large for flash partition")
  }

  /** The pre-check refuses exactly the declared sizes beyond the sketch
      capacity on the firmware path and beyond the filesystem size on the
      filesystem path; a size within the capacity is never refused. */
  lemma AdmitRefusesExactlyOversize(free: Uint32, fs: nat, m: Mode, totalSize: nat)
    ensures Admit(Esp8266(free, fs), m, totalSize).TooLarge? <==>
      (totalSize > 0 &&
       totalSize > (if m == Filesystem then fs else SketchSpace(free)))
    ensures Admit(Esp32, m, totalSize).Open?
  {
  }
}

=== FILE: session.dfy ===
/** Whole uploads: sequences of chunk events and completions run against one
    controller, the invariants they keep, and the behaviours that only show
    across several events (including the places where the handler does not do
    what its own comments say, such as the first-chunk flag that the start
    event does not reset). */
module Session {
  import opened Types
  import opened Driver
  import opened Platform
  import opened Controller
  import opened Upload

  /** One data chunk of an upload: its length and the driver's answers. */
  datatype Chunk = Chunk(size: nat, reply: DriverReply)

  /** The total length of a run of chunks. */
  function Received(chunks: seq<Chunk>): nat
    decreases |chunks|
  {
    if |chunks| == 0 then 0
    else Received(chunks[..|chunks| - 1]) + chunks[|chunks| - 1].size
  }

  /** The driver calls a run of accepted chunks issues: one write per chunk. */
  function WriteCalls(chunks: seq<Chunk>): (calls: seq<DriverCall>)
    ensures |calls| == |chunks|
    decreases |chunks|
  {
    if |chunks| == 0 then []
    else WriteCalls(chunks[..|chunks| - 1]) + [WriteCall(chunks[|chunks| - 1].size)]
  }

  /** A run of write events with the same declared total size, oldest first. */
  function FeedWrites(c: Controller, chunks: seq<Chunk>, totalSize: nat): Controller
    decreases |chunks|
  {
    if |chunks| == 0 then c
    else
      var last := chunks[|chunks| - 1];
      OnFileWrite(FeedWrites(c, chunks[..|chunks| - 1], totalSize), last.size, totalSize, last.reply)
  }

  /** Every chunk was written in full by the driver. */
  predicate FullWrites(chunks: seq<Chunk>) {
    forall i :: 0 <= i < |chunks| ==> chunks[i].reply.written == chunks[i].size
  }

  /** Some chunk was written short by the driver. */
  predicate SomeShortWrite(chunks: seq<Chunk>) {
    exists j :: 0 <= j < |chunks| && chunks[j].reply.written != chunks[j].size
  }

  /** The empty-first-chunk check does not fire on this run. */
  predicate FirstChunkAccepted(c: Controller, chunks: seq<Chunk>) {
    c.firstWrite && |chunks| > 0 ==> chunks[0].size > 0
  }

  /** After a run of fully written chunks the counter has grown by exactly the
      sum of their lengths, the error store is as it was, and the driver has
      received one write per chunk and nothing else. */
  lemma {:induction false} FullWritesAccumulate(c: Controller, chunks: seq<Chunk>, totalSize: nat)
    requires FullWrites(chunks) && FirstChunkAccepted(c, chunks)
    ensures var r := FeedWrites(c, chunks, totalSize);
      && r.totalReceived == c.totalReceived + Received(chunks)
      && r.lastError == c.lastError && r.lastErrorMessage == c.lastErrorMessage
      && r.flash == Flash(c.flash.hasError, c.flash.calls + WriteCalls(chunks))
      && (|chunks| > 0 ==> !r.firstWrite)
      && (!c.callbacks.progress ==> r.notices == c.notices)
      && KeepsSettings(c, r)
    decreases |chunks|
  {
    if |chunks| > 0 {
      var prefix := chunks[..|chunks| - 1];
      var last := chunks[|chunks| - 1];
      assert FullWrites(prefix) by {
        forall i | 0 <= i < |prefix| ensures prefix[i].reply.written == prefix[i].size {
          assert prefix[i] == chunks[i];
        }
      }
      assert FirstChunkAccepted(c, prefix) by {
        if |prefix| > 0 { assert prefix[0] == chunks[0]; }
      }
      FullWritesAccumulate(c, prefix, totalSize);
      var mid := FeedWrites(c, prefix, totalSize);
      assert !EmptyFirstChunk(mid, last.size) by {
        if |prefix| == 0 { assert last == chunks[0]; }
      }
      assert last.reply.written == last.size;
      assert c.flash.calls + WriteCalls(chunks)
          == (c.flash.calls + WriteCalls(prefix)) + [WriteCall(last.size)];
    }
  }

  /** Whatever the driver answers, write events never lower the counter. */
  lemma {:induction false} WritesNeverDecrease(c: Controller, chunks: seq<Chunk>, totalSize: nat)
    ensures FeedWrites(c, chunks, totalSize).totalReceived >= c.totalReceived
    ensures KeepsSettings(c, FeedWrites(c, chunks, totalSize))
    decreases |chunks|
  {
    if |chunks| > 0 {
      WritesNeverDecrease(c, chunks[..|chunks| - 1], totalSize);
    }
  }

  /** Once the driver has an error, later write events do not clear it (only
      a successful `begin` would). */
  lemma {:induction false} DriverErrorSticks(c: Controller, chunks: seq<Chunk>, totalSize: nat)
    requires c.flash.hasError
    ensures FeedWrites(c, chunks, totalSize).flash.hasError
    decreases |chunks|
  {
    if |chunks| > 0 {
      DriverErrorSticks(c, chunks[..|chunks| - 1], totalSize);
    }
  }

  /** A single short write anywhere in a run, or an empty first chunk since
      boot (which aborts too), leaves the driver's error flag raised for the
      rest of the run. */
  lemma {:induction false} ShortWriteFailsUpload(c: Controller, chunks: seq<Chunk>, totalSize: nat)
    requires SomeShortWrite(chunks) || (c.firstWrite && |chunks| > 0 && chunks[0].size == 0)
    ensures FeedWrites(c, chunks, totalSize).flash.hasError
    decreases |chunks|
  {
    var prefix := chunks[..|chunks| - 1];
    var last := chunks[|chunks| - 1];
    if |prefix| == 0 {
      assert last == chunks[0];
    } else if last.reply.written == last.size {
      if SomeShortWrite(chunks) {
        var j :| 0 <= j < |chunks| && chunks[j].reply.written != chunks[j].size;
        assert j < |prefix| && prefix[j] == chunks[j];
      } else {
        assert prefix[0] == chunks[0];
      }
      ShortWriteFailsUpload(c, prefix, totalSize);
    }
  }

  /** One step of the controller's life: a chunk event, or the completion
      handler answering the request. */
  datatype Step =
    | Deliver(ev: Event, reply: DriverReply)
    | Respond(authorized: bool, reason: string, now: nat)

  function Apply(c: Controller, p: Platform, s: Step): Controller {
    match s
    case Deliver(ev, reply) => Handle(c, p, ev, reply)
    case Respond(authorized, reason, now) => Complete(c, authorized, reason, now).controller
  }

  /** A run of steps, oldest first. */
  function Run(c: Controller, p: Platform, steps: seq<Step>): Controller
    decreases |steps|
  {
    if |steps| == 0 then c
    else Apply(Run(c, p, steps[..|steps| - 1]), p, steps[|steps| - 1])
  }

  /** Every step keeps the error store and the reboot fields consistent. */
  lemma ApplyKeepsValid(c: Controller, p: Platform, s: Step)
    requires Valid(c)
    ensures Valid(Apply(c, p, s))
  {
    match s
    case Deliver(ev, reply) =>
      match ev {
        case FileStart(m, t) =>
        case FileWrite(n, t) =>
        case FileEnd =>
        case FileAborted =>
      }
    case Respond(a, reason, now) =>
  }

  /** Starting from a consistent controller (a fresh one is), any run of
      steps leaves it consistent: an error kind always comes with a message,
      the rest state with none, and a pending reboot with a due time. */
  lemma {:induction false} RunKeepsValid(c: Controller, p: Platform, steps: seq<Step>)
    requires Valid(c)
    ensures Valid(Run(c, p, steps))
    decreases |steps|
  {
    if |steps| > 0 {
      RunKeepsValid(c, p, steps[..|steps| - 1]);
      ApplyKeepsValid(Run(c, p, steps[..|steps| - 1]), p, steps[|steps| - 1]);
    }
  }

  /** Nothing but a start event clears the error store: after any other
      event or a completion, `NoError` means there was no error before. */
  lemma ErrorClearedOnlyByStart(c: Controller, p: Platform, s: Step)
    requires !(s.Deliver? && s.ev.FileStart?)
    ensures LastError(Apply(c, p, s)) == NoError ==> LastError(c) == NoError
  {
    match s
    case Deliver(ev, reply) =>
      match ev {
        case FileWrite(n, t) =>
        case FileEnd =>
        case FileAborted =>
      }
    case Respond(a, reason, now) =>
  }

  /** A pending reboot is never cancelled, and chunk events never move it: a
      new upload begun before the restart is due does not stop it. */
  lemma {:induction false} PendingRebootSurvives(c: Controller, p: Platform, steps: seq<Step>)
    ensures c.rebootRequested ==> Run(c, p, steps).rebootRequested
    ensures (forall i :: 0 <= i < |steps| ==> steps[i].Deliver?) ==>
      Run(c, p, steps).rebootRequested == c.rebootRequested &&
      Run(c, p, steps).rebootTime == c.rebootTime
    decreases |steps|
  {
    if |steps| > 0 {
      var prefix := steps[..|steps| - 1];
      PendingRebootSurvives(c, p, prefix);
      if forall i :: 0 <= i < |steps| ==> steps[i].Deliver? {
        assert forall i :: 0 <= i < |prefix| ==> prefix[i].Deliver? by {
          forall i | 0 <= i < |prefix| ensures prefix[i].Deliver? {
            assert prefix[i] == steps[i];
          }
        }
      }
    }
  }

  /** History is never rewritten: every run only appends to the driver's
      call log and to the observers' notification log. */
  lemma {:induction false} RunOnlyAppends(c: Controller, p: Platform, steps: seq<Step>)
    ensures var r := Run(c, p, steps);
      && |c.flash.calls| <= |r.flash.calls| && r.flash.calls[..|c.flash.calls|] == c.flash.calls
      && |c.notices| <= |r.notices| && r.notices[..|c.notices|] == c.notices
    decreases |steps|
  {
    if |steps| > 0 {
      RunOnlyAppends(c, p, steps[..|steps| - 1]);
      var mid := Run(c, p, steps[..|steps| - 1]);
      var r := Run(c, p, steps);
      assert r.flash.calls[..|mid.flash.calls|] == mid.flash.calls;
      assert r.flash.calls[..|c.flash.calls|] == mid.flash.calls[..|c.flash.calls|];
      assert r.notices[..|mid.notices|] == mid.notices;
      assert r.notices[..|c.notices|] == mid.notices[..|c.notices|];
    }
  }

  /** The empty-first-chunk rejection aborts exactly once and writes nothing:
      the driver's log gains a single abort. */
  lemma EmptyFirstChunkAbortsOnce(c: Controller, totalSize: nat, reply: DriverReply)
    requires c.firstWrite
    ensures var r := OnFileWrite(c, 0, totalSize, reply);
      && LastError(r) == InvalidFile
      && AbortCount(r.flash.calls) == AbortCount(c.flash.calls) + 1
      && |r.flash.calls| == |c.flash.calls| + 1
      && r.totalReceived == c.totalReceived
  {
    var r := OnFileWrite(c, 0, totalSize, reply);
    AbortCountAppend(c.flash.calls, [AbortCall]);
    assert [AbortCall][..0] == [];
  }

  /** A short write aborts exactly once and leaves the counter alone. */
  lemma ShortWriteAbortsOnce(c: Controller, currentSize: nat, totalSize: nat, reply: DriverReply)
    requires !EmptyFirstChunk(c, currentSize) && reply.written != currentSize
    ensures var r := OnFileWrite(c, currentSize, totalSize, reply);
      && LastError(r) == UpdateWriteFailed
      && AbortCount(r.flash.calls) == AbortCount(c.flash.calls) + 1
      && r.totalReceived == c.totalReceived
  {
    AbortCountAppend(c.flash.calls, [WriteCall(currentSize), AbortCall]);
    assert [WriteCall(currentSize), AbortCall][..1] == [WriteCall(currentSize)];
    assert [WriteCall(currentSize)][..0] == [];
  }

  /** The first-chunk flag is the controller's, not the upload's: once any
      write event has been seen, a later upload's empty first chunk is not
      rejected. It goes to the driver as a zero-length write and the error
      store keeps whatever the start left there. */
  lemma EmptyChunkCheckedOnlyOnceSinceBoot(
    c: Controller, p: Platform, modeArg: string, totalSize: nat,
    startReply: DriverReply, reply: DriverReply)
    requires !c.firstWrite
    ensures var s := OnFileStart(c, p, modeArg, totalSize, startReply);
      var r := OnFileWrite(s, 0, totalSize, reply);
      && LastError(r) != InvalidFile
      && |r.flash.calls| > |s.flash.calls| && r.flash.calls[|s.flash.calls|] == WriteCall(0)
      && (reply.written == 0 ==> LastError(r) == LastError(s))
  {
  }

  /** A concrete instance: after one complete upload, a second upload whose
      first chunk is empty is accepted without error. */
  lemma SecondUploadEmptyChunkAccepted(reply: DriverReply)
    requires reply.beginOk && reply.endOk && reply.written == 0
    ensures var first := OnFileWrite(OnFileStart(Initial(), Esp32, "firmware", 0, reply), 4096, 0, reply.(written := 4096));
      var done := Complete(OnFileEnd(first, reply), true, "", 0).controller;
      var second := OnFileWrite(OnFileStart(done, Esp32, "firmware", 0, reply), 0, 0, reply);
      LastError(second) == NoError && second.flash.calls[|second.flash.calls| - 1] == WriteCall(0)
  {
  }

  /** Nothing gates on the error store: after a failure, a later chunk still
      reaches the driver, and a full write still counts. */
  lemma WritesContinueAfterFailure(c: Controller, currentSize: nat, totalSize: nat, reply: DriverReply)
    requires LastError(c) != NoError && !EmptyFirstChunk(c, currentSize)
    ensures var r := OnFileWrite(c, currentSize, totalSize, reply);
      && r.flash.calls[..|c.flash.calls| + 1] == c.flash.calls + [WriteCall(currentSize)]
      && (reply.written == currentSize ==>
            r.totalReceived == c.totalReceived + currentSize && LastError(r) == LastError(c))
  {
    var r := OnFileWrite(c, currentSize, totalSize, reply);
    if reply.written != currentSize {
      assert r.flash.calls == (c.flash.calls + [WriteCall(currentSize)]) + [AbortCall];
    }
  }

  /** The completion handler decides on the driver's flag alone and may
      replace whatever the chunk handler recorded: a driver error always ends
      as `UpdateEndFailed`, and a clean driver answers "OK" even when the
      error store holds a failure. */
  lemma CompletionIgnoresErrorStore(c: Controller, authorized: bool, reason: string, now: nat)
    requires !(c.authenticate && !authorized)
    ensures c.flash.hasError ==>
      LastError(Complete(c, authorized, reason, now).controller) == UpdateEndFailed
    ensures !c.flash.hasError ==>
      Complete(c, authorized, reason, now).response == PlainText(200, OkBody) &&
      LastError(Complete(c, authorized, reason, now).controller) == LastError(c)
  {
  }

  /** On the ESP8266 build a refused oversize upload never opens the driver,
      yet its data chunks and its END event still reach it. Whether the request
      answers "OK" then rests on the driver alone: when it accepts the writes
      and reports `end(true)` as a success without any `begin`, the completion
      answers "OK", reports the end as a success and arms a reboot while the
      error store still says `FileTooLarge`; when `end` fails, it answers
      "FAIL". */
  lemma OversizeUploadCanReportOk(
    c: Controller, free: Uint32, fs: nat, modeArg: string, totalSize: nat,
    startReply: DriverReply, chunks: seq<Chunk>, endReply: DriverReply,
    authorized: bool, reason: string, now: nat)
    requires !c.flash.hasError && !(c.authenticate && !authorized) && c.autoReboot
    requires totalSize > (if ResolveMode(modeArg) == Filesystem then fs else SketchSpace(free))
    requires FullWrites(chunks) && FirstChunkAccepted(c, chunks)
    ensures var s := OnFileStart(c, Esp8266(free, fs), modeArg, totalSize, startReply);
      var e := OnFileEnd(FeedWrites(s, chunks, totalSize), endReply);
      var r := Complete(e, authorized, reason, now);
      && LastError(s) == FileTooLarge
      && e.flash.calls == c.flash.calls + WriteCalls(chunks) + [EndCall(true)]
      && (endReply.endOk ==>
            && r.response == PlainText(200, OkBody)
            && LastError(r.controller) == FileTooLarge
            && r.controller.rebootRequested && r.controller.rebootTime == now + RebootDelay)
      && (!endReply.endOk ==>
            r.response == PlainText(200, FailBody) && LastError(r.controller) == UpdateEndFailed)
  {
    var s := OnFileStart(c, Esp8266(free, fs), modeArg, totalSize, startReply);
    FullWritesAccumulate(s, chunks, totalSize);
  }

  /** The other side of the same sequence: a refused upload never calls
      `begin`, so nothing lowers a driver error flag left over from an earlier
      upload, and the completion answers "FAIL" whatever the writes and `end`
      report. */
  lemma OversizeUploadAfterDriverErrorFails(
    c: Controller, free: Uint32, fs: nat, modeArg: string, totalSize: nat,
    startReply: DriverReply, chunks: seq<Chunk>, endReply: DriverReply,
    authorized: bool, reason: string, now: nat)
    requires c.flash.hasError && !(c.authenticate && !authorized)
    requires totalSize > (if ResolveMode(modeArg) == Filesystem then fs else SketchSpace(free))
    ensures var s := OnFileStart(c, Esp8266(free, fs), modeArg, totalSize, startReply);
      var e := OnFileEnd(FeedWrites(s, chunks, totalSize), endReply);
      var r := Complete(e, authorized, reason, now);
      && LastError(s) == FileTooLarge
      && e.flash.hasError
      && r.response == PlainText(200, FailBody)
      && LastError(r.controller) == UpdateEndFailed
      && r.controller.rebootRequested == c.rebootRequested
  {
    var s := OnFileStart(c, Esp8266(free, fs), modeArg, totalSize, startReply);
    DriverErrorSticks(s, chunks, totalSize);
    WritesNeverDecrease(s, chunks, totalSize);
  }

  /** The upload handler performs no access check; the only one sits in the
      completion handler, which runs after the last chunk event. On either
      platform, an unauthorised client's image that passes the size pre-check
      is opened, written and finalised on the driver, and only then is the
      client challenged. No reboot is armed, but the driver has committed the
      image. */
  lemma UnauthorizedUploadStillReachesFlash(
    c: Controller, p: Platform, modeArg: string, totalSize: nat, chunks: seq<Chunk>,
    startReply: DriverReply, endReply: DriverReply, reason: string, now: nat)
    requires c.authenticate && !c.rebootRequested
    requires Fits(totalSize, Capacity(p, ResolveMode(modeArg)))
    requires startReply.beginOk && endReply.endOk
    requires FullWrites(chunks) && FirstChunkAccepted(c, chunks)
    ensures var s := OnFileStart(c, p, modeArg, totalSize, startReply);
      var e := OnFileEnd(FeedWrites(s, chunks, totalSize), endReply);
      var r := Complete(e, false, reason, now);
      var m := ResolveMode(modeArg);
      && r.response == AuthChallenge
      && LastError(r.controller) == AuthFailed
      && !r.controller.rebootRequested
      && !e.flash.hasError
      && e.flash.calls == c.flash.calls + [BeginCall(Capacity(p, m), RegionFor(p, m))] +
           WriteCalls(chunks) + [EndCall(true)]
  {
    var s := OnFileStart(c, p, modeArg, totalSize, startReply);
    FullWritesAccumulate(s, chunks, totalSize);
  }

  /** A reboot is armed only by a completion that answered "OK" with auto
      reboot on; once armed, the tick restarts the device exactly from
      `now + 2000` on. */
  lemma RebootOnlyAfterSuccess(c: Controller, authorized: bool, reason: string, now: nat, t: nat)
    requires !c.rebootRequested
    ensures var r := Complete(c, authorized, reason, now);
      r.controller.rebootRequested ==>
        r.response == PlainText(200, OkBody) && c.autoReboot && !c.flash.hasError &&
        (HandleReboot(r.controller, t) <==> t >= now + RebootDelay)
    ensures var r := Complete(c, authorized, reason, now);
      !r.controller.rebootRequested ==> !HandleReboot(r.controller, t)
  {
  }

  /** Arming twice does not stack: the second successful completion moves the
      due time to its own `now + 2000`, earlier or later than before. */
  lemma RearmingOverwrites(
    c: Controller, authorized1: bool, authorized2: bool, reason: string, now1: nat, now2: nat)
    requires !(c.authenticate && !authorized1) && !(c.authenticate && !authorized2)
    requires !c.flash.hasError && c.autoReboot
    ensures var r1 := Complete(c, authorized1, reason, now1).controller;
      var r2 := Complete(r1, authorized2, reason, now2).controller;
      r1.rebootTime == now1 + RebootDelay && r2.rebootRequested && r2.rebootTime == now2 + RebootDelay
  {
  }

  /** A clean upload from start to finish. */
  method UploadImage(
    c: Controller, p: Platform, modeArg: string, totalSize: nat, chunks: seq<Chunk>,
    startReply: DriverReply, endReply: DriverReply, authorized: bool, reason: string, now: nat)
    returns (r: Completion)
    ensures var s := OnFileStart(c, p, modeArg, totalSize, startReply);
      r == Complete(OnFileEnd(FeedWrites(s, chunks, totalSize), endReply), authorized, reason, now)
    ensures SomeShortWrite(chunks) &&
            !(c.authenticate && !authorized) ==>
      r.response == PlainText(200, FailBody) && LastError(r.controller) == UpdateEndFailed
    ensures Fits(totalSize, Capacity(p, ResolveMode(modeArg))) && startReply.beginOk &&
            FullWrites(chunks) && FirstChunkAccepted(c, chunks) && endReply.endOk &&
            !(c.authenticate && !authorized) ==>
      && r.response == PlainText(200, OkBody)
      && r.controller.totalReceived == Received(chunks)
      && LastError(r.controller) == NoError
      && r.controller.rebootRequested == (c.rebootRequested || c.autoReboot)
  {
    var s := OnFileStart(c, p, modeArg, totalSize, startReply);
    var started := s;
    var i := 0;
    while i < |chunks|
      invariant 0 <= i <= |chunks|
      invariant s == FeedWrites(started, chunks[..i], totalSize)
    {
      assert chunks[..i + 1][..i] == chunks[..i];
      s := OnFileWrite(s, chunks[i].size, totalSize, chunks[i].reply);
      i := i + 1;
    }
    assert chunks[..i] == chunks;
    s := OnFileEnd(s, endReply);
    r := Complete(s, authorized, reason, now);
    if SomeShortWrite(chunks) && !(c.authenticate && !authorized) {
      UploadFailsAfterShortWrite(c, p, modeArg, totalSize, chunks, startReply, endReply, authorized, reason, now);
    }
    if Fits(totalSize, Capacity(p, ResolveMode(modeArg))) && startReply.beginOk &&
       FullWrites(chunks) && FirstChunkAccepted(c, chunks) && endReply.endOk &&
       !(c.authenticate && !authorized) {
      CleanUploadSucceeds(c, p, modeArg, totalSize, chunks, startReply, endReply, authorized, reason, now);
    }
  }

  /** A whole upload with a short write anywhere ends in "FAIL" with
      `UpdateEndFailed`, whatever `begin` and `end` answered. */
  lemma UploadFailsAfterShortWrite(
    c: Controller, p: Platform, modeArg: string, totalSize: nat, chunks: seq<Chunk>,
    startReply: DriverReply, endReply: DriverReply, authorized: bool, reason: string, now: nat)
    requires SomeShortWrite(chunks) && !(c.authenticate && !authorized)
    ensures var s := OnFileStart(c, p, modeArg, totalSize, startReply);
      var r := Complete(OnFileEnd(FeedWrites(s, chunks, totalSize), endReply), authorized, reason, now);
      r.response == PlainText(200, FailBody) && LastError(r.controller) == UpdateEndFailed
  {
    var started := OnFileStart(c, p, modeArg, totalSize, startReply);
    ShortWriteFailsUpload(started, chunks, totalSize);
    WritesNeverDecrease(started, chunks, totalSize);
  }

  /** A whole upload that fits, opens, is written in full and finalises
      answers "OK" with no error, the counter at the image length, and a
      reboot armed when auto reboot is on. */
  lemma CleanUploadSucceeds(
    c: Controller, p: Platform, modeArg: string, totalSize: nat, chunks: seq<Chunk>,
    startReply: DriverReply, endReply: DriverReply, authorized: bool, reason: string, now: nat)
    requires Fits(totalSize, Capacity(p, ResolveMode(modeArg))) && startReply.beginOk
    requires FullWrites(chunks) && FirstChunkAccepted(c, chunks) && endReply.endOk
    requires !(c.authenticate && !authorized)
    ensures var s := OnFileStart(c, p, modeArg, totalSize, startReply);
      var r := Complete(OnFileEnd(FeedWrites(s, chunks, totalSize), endReply), authorized, reason, now);
      && r.response == PlainText(200, OkBody)
      && r.controller.totalReceived == Received(chunks)
      && LastError(r.controller) == NoError
      && r.controller.rebootRequested == (c.rebootRequested || c.autoReboot)
  {
    var started := OnFileStart(c, p, modeArg, totalSize, startReply);
    FullWritesAccumulate(started, chunks, totalSize);
  }

  /** The firmware scenario: start with no declared size, two 4096-byte
      chunks, a verified end. The counter reads 8192, the error store stays
      clear, the end observer hears one success, and a reboot is armed. */
  lemma TwoChunkFirmwareScenario(reply: DriverReply)
    requires reply.beginOk && reply.endOk && reply.written == 4096
    ensures var c := Register(Initial(), EndHook, true);
      var s := OnFileStart(c, Esp32, "firmware", 0, reply);
      var w := FeedWrites(s, [Chunk(4096, reply), Chunk(4096, reply)], 0);
      var r := Complete(OnFileEnd(w, reply), true, "", 1000);
      && w.totalReceived == 8192
      && LastError(s) == NoError && LastError(w) == NoError && LastError(r.controller) == NoError
      && r.response == PlainText(200, OkBody)
      && r.controller.notices == [Ended(true)]
      && r.controller.rebootRequested && r.controller.rebootTime == 3000
  {
    var c := Register(Initial(), EndHook, true);
    var s := OnFileStart(c, Esp32, "firmware", 0, reply);
    var chunks := [Chunk(4096, reply), Chunk(4096, reply)];
    FullWritesAccumulate(s, chunks, 0);
    assert chunks[..1] == [Chunk(4096, reply)];
    assert [Chunk(4096, reply)][..0] == [];
    assert Received([Chunk(4096, reply)]) == 4096;
    assert Received(chunks) == 8192;
    var w := FeedWrites(s, chunks, 0);
    assert !w.flash.hasError && w.notices == [];
    var e := OnFileEnd(w, reply);
    assert !e.flash.hasError && e.notices == [] && e.autoReboot && e.callbacks.end;
  }

  /** The empty-upload scenario: a filesystem upload whose first chunk is
      empty fails with `InvalidFile`, aborts once and writes nothing. */
  lemma EmptyFilesystemUploadScenario(reply: DriverReply)
    requires reply.beginOk
    ensures var s := OnFileStart(Initial(), Esp32, "filesystem", 1, reply);
      var r := OnFileWrite(s, 0, 1, reply);
      && r.flash.calls == [BeginCall(SizeUnknown, USpiffs), AbortCall]
      && LastError(r) == InvalidFile
      && AbortCount(r.flash.calls) == 1
  {
    var r := OnFileWrite(OnFileStart(Initial(), Esp32, "filesystem", 1, reply), 0, 1, reply);
    assert r.flash.calls[..1] == [BeginCall(SizeUnknown, USpiffs)];
    assert r.flash.calls[..1][..0] == [];
  }

  /** The oversize scenario: a 10,000,000-byte firmware image on an ESP8266
      with a 999,424-byte sketch capacity is refused before `begin`. */
  lemma OversizeFirmwareScenario(reply: DriverReply)
    ensures SketchSpace(1003520) == 999424
    ensures var s := OnFileStart(Initial(), Esp8266(1003520, 0), "firmware", 10000000, reply);
      LastError(s) == FileTooLarge && s.flash.calls == [] &&
      LastErrorMessage(s) == "File too large for flash partition"
  {
  }
}

=== FILE: types.dfy ===
/** The two enumerations of the uploader: the update mode an upload targets and
    the closed set of error kinds the controller can report. */
module Types {

  /** ESP32Fw_Mode: the flash region an upload is written to. */
  datatype Mode = Firmware | Filesystem

  /** ESP32Fw_Error: exactly one kind is current at any time; `NoError` is the
      rest state (ESP32FW_ERROR_NONE). */
  datatype ErrorKind =
    | NoError
    | AuthFailed
    | UpdateBeginFailed
    | UpdateWriteFailed
    | UpdateEndFailed
    | FileTooLarge
    | InvalidFile
    | NetworkError

  /** Number of enumerators of ESP32Fw_Error. */
  const ErrorKindCount: nat := 8

  /** The integer value the C++ enum gives each mode. */
  function ModeCode(m: Mode): (k: nat)
    ensures k < 2
  {
    match m
    case Firmware => 0
    case Filesystem => 1
  }

  /** The mode whose enumerator has value `k`. */
  function ModeFromCode(k: nat): (m: Mode)
    requires k < 2
    ensures ModeCode(m) == k
  {
    if k == 0 then Firmware else Filesystem
  }

  /** The integer value the C++ enum gives each error kind: NONE is 0 and the
      others follow in declaration order. */
  function ErrorCode(e: ErrorKind): (k: nat)
    ensures k < ErrorKindCount
    ensures k == 0 <==> e == NoError
  {
    match e
    case NoError => 0
    case AuthFailed => 1
    case UpdateBeginFailed => 2
    case UpdateWriteFailed => 3
    case UpdateEndFailed => 4
    case FileTooLarge => 5
    case InvalidFile => 6
    case NetworkError => 7
  }

  /** The error kind whose enumerator has value `k`. */
  function ErrorFromCode(k: nat): (e: ErrorKind)
    requires k < ErrorKindCount
    ensures ErrorCode(e) == k
  {
    if k == 0 then NoError
    else if k == 1 then AuthFailed
    else if k == 2 then UpdateBeginFailed
    else if k == 3 then UpdateWriteFailed
    else if k == 4 then UpdateEndFailed
    else if k == 5 then FileTooLarge
    else if k == 6 then InvalidFile
    else NetworkError
  }

  /** The error kinds and the values 0..7 are in one-to-one correspondence, so
      the eight enumerators are pairwise distinct and the set is closed. */
  lemma ErrorCodeBijection(a: ErrorKind, b: ErrorKind)
    ensures ErrorFromCode(ErrorCode(a)) == a
    ensures ErrorCode(a) == ErrorCode(b) ==> a == b
  {
  }

  /** Likewise the two modes are exactly the values 0 and 1. */
  lemma ModeCodeBijection(a: Mode, b: Mode)
    ensures ModeFromCode(ModeCode(a)) == a
    ensures ModeCode(a) == ModeCode(b) ==> a == b
    ensures ModeCode(Firmware) == 0 && ModeCode(Filesystem) == 1
  {
  }

  /** The value of the `mode` request parameter. An absent parameter reads as
      the empty string, which is just another value here. */
  const FilesystemArg: string := "filesystem"

  /** Resolves the `mode` request parameter: only the exact string
      "filesystem" selects the filesystem; everything else, the empty string
      included, falls back to firmware. There is no error outcome. */
  function ResolveMode(arg: string): (m: Mode)
  {
    if arg == FilesystemArg then Filesystem else Firmware
  }

  /** The parameter value the web interface sends for each mode (its radio
      buttons carry "firmware" and "filesystem"). */
  function ModeArg(m: Mode): (arg: string)
    ensures |arg| > 0
  {
    match m
    case Firmware => "firmware"
    case Filesystem => FilesystemArg
  }

  /** Resolution is total and recovers the mode the interface asked for;
      "filesystem" is the only value that selects the filesystem. */
  lemma ResolveModeCharacterised(arg: string, m: Mode)
    ensures ResolveMode(ModeArg(m)) == m
    ensures ResolveMode(arg) == Filesystem <==> arg == ModeArg(Filesystem)
    ensures ResolveMode(arg) == Firmware <==> arg != ModeArg(Filesystem)
    ensures ResolveMode("") == Firmware
  {
  }
}

=== FILE: upload.dfy ===
/** The two request handlers of the upload endpoint: the chunk handler, called
    once per chunk event while the body streams in, and the completion
    handler, called once the request has been received. Also the handler of
    the web-interface page, which shares the access check. */
module Upload {
  import opened Types
  import opened Driver
  import opened Platform
  import opened Controller
  import Decimal

  /** A chunk event as the HTTP server delivers it (UPLOAD_FILE_START,
      UPLOAD_FILE_WRITE, UPLOAD_FILE_END, UPLOAD_FILE_ABORTED). The mode
      parameter and declared total size come with the start event; a write
      event carries the chunk length (the bytes themselves only matter to the
      driver) and the declared total size again. */
  datatype Event =
    | FileStart(modeArg: string, totalSize: nat)
    | FileWrite(currentSize: nat, totalSize: nat)
    | FileEnd
    | FileAborted

  /** What the client receives: a plain-text body with a status, the web
      interface page, or an authentication challenge. */
  datatype Response =
    | PlainText(status: nat, body: string)
    | WebInterface
    | AuthChallenge

  /** The state after the completion handler, and its response. */
  datatype Completion = Completion(controller: Controller, response: Response)

  const BeginFailedPrefix: string := "Failed to begin update: "
  const NoDataMessage: string := "No data received in upload"
  const WriteFailedPrefix: string := "Failed to write update data: "
  const EndFailedPrefix: string := "Failed to finalize update: "
  const AbortedMessage: string := "Upload was aborted"
  const UpdateFailedPrefix: string := "Update failed: "
  const UploadAuthMessage: string := "Authentication failed during upload"
  const PageAuthMessage: string := "Authentication failed"

  /** The fixed pieces of the size-mismatch message around the three counts. */
  const MismatchLead: string := "Write size mismatch (expected: "
  const WrittenLead: string := ", written: "
  const HeapLead: string := "), Free heap: "
  const HeapTail: string := " bytes"

  /** The body of a successful and of a failed upload response. */
  const OkBody: string := "OK"
  const FailBody: string := "FAIL"

  /** The message of a short write: the driver's own reason when it has one,
      otherwise the expected and written byte counts and the free heap. */
  function WriteFailureMessage(expected: nat, written: nat, reason: string, freeHeap: nat): (msg: string)
    ensures |msg| > |WriteFailedPrefix| && msg[..|WriteFailedPrefix|] == WriteFailedPrefix
    ensures reason != "" && reason != "No Error" ==> msg == WriteFailedPrefix + reason
  {
    WriteFailedPrefix +
      (if reason == "" || reason == "No Error" then MismatchDetail(expected, written, freeHeap)
       else reason)
  }

  /** The text that stands in for a missing driver reason. */
  function MismatchDetail(expected: nat, written: nat, freeHeap: nat): string {
    MismatchLead + Decimal.ToDecimal(expected) +
    WrittenLead + Decimal.ToDecimal(written) +
    HeapLead + Decimal.ToDecimal(freeHeap) + HeapTail
  }

  /** `msg` quotes `n` at offset `at`: the text `lead` ends there, and the
      decimal text that starts there reads back as `n`. */
  predicate QuotesAt(msg: string, at: nat, lead: string, n: nat) {
    var d := Decimal.ToDecimal(n);
    && |lead| <= at && at + |d| <= |msg|
    && msg[at - |lead|..at] == lead
    && Decimal.IsDigits(msg[at..at + |d|])
    && Decimal.FromDecimal(msg[at..at + |d|]) == n
  }

  /** Where the three counts of the size-mismatch message start: each right
      after its lead text, at an offset fixed by what comes before. */
  function ExpectedAt(): nat {
    |WriteFailedPrefix| + |MismatchLead|
  }

  function WrittenAt(expected: nat): nat {
    ExpectedAt() + |Decimal.ToDecimal(expected)| + |WrittenLead|
  }

  function FreeHeapAt(expected: nat, written: nat): nat {
    WrittenAt(expected) + |Decimal.ToDecimal(written)| + |HeapLead|
  }

  /** A decimal count placed right after `lead` in any text is quoted there. */
  lemma QuotedAfterLead(msg: string, at: nat, head: string, lead: string, n: nat, tail: string)
    requires msg == head + lead + Decimal.ToDecimal(n) + tail
    requires at == |head| + |lead|
    ensures QuotesAt(msg, at, lead, n)
  {
    var d := Decimal.ToDecimal(n);
    assert msg[at - |lead|..at] == lead;
    assert msg[at..at + |d|] == d;
    Decimal.DecimalRoundTrip(n);
  }

  /** With no real driver reason, the message is the prefix followed by the
      lead texts and the three counts in order. */
  lemma MismatchLayout(expected: nat, written: nat, reason: string, freeHeap: nat)
    requires reason == "" || reason == "No Error"
    ensures WriteFailureMessage(expected, written, reason, freeHeap) ==
      WriteFailedPrefix + (MismatchLead + Decimal.ToDecimal(expected) +
                           WrittenLead + Decimal.ToDecimal(written) +
                           HeapLead + Decimal.ToDecimal(freeHeap) + HeapTail)
  {
  }

  /** A concatenation of the mismatch message's shape, regrouped around each
      of its three inserted texts. */
  lemma Regroup(p: string, l1: string, x: string, l2: string, y: string, l3: string, z: string, t: string)
    ensures p + (l1 + x + l2 + y + l3 + z + t) == p + l1 + x + (l2 + y + l3 + z + t)
    ensures p + (l1 + x + l2 + y + l3 + z + t) == (p + l1 + x) + l2 + y + (l3 + z + t)
    ensures p + (l1 + x + l2 + y + l3 + z + t) == (p + l1 + x + l2 + y) + l3 + z + t
  {
  }

  /** With no real driver reason, the message quotes the expected count right
      after "(expected: ", and that text reads back as the expected count. */
  lemma MismatchQuotesExpected(expected: nat, written: nat, reason: string, freeHeap: nat)
    requires reason == "" || reason == "No Error"
    ensures QuotesAt(WriteFailureMessage(expected, written, reason, freeHeap),
                     ExpectedAt(), MismatchLead, expected)
  {
    var tail := WrittenLead + Decimal.ToDecimal(written) +
                HeapLead + Decimal.ToDecimal(freeHeap) + HeapTail;
    MismatchLayout(expected, written, reason, freeHeap);
    Regroup(WriteFailedPrefix, MismatchLead, Decimal.ToDecimal(expected), WrittenLead,
            Decimal.ToDecimal(written), HeapLead, Decimal.ToDecimal(freeHeap), HeapTail);
    QuotedAfterLead(WriteFailureMessage(expected, written, reason, freeHeap), ExpectedAt(),
                    WriteFailedPrefix, MismatchLead, expected, tail);
  }

  /** ... and the written count right after ", written: ". */
  lemma MismatchQuotesWritten(expected: nat, written: nat, reason: string, freeHeap: nat)
    requires reason == "" || reason == "No Error"
    ensures QuotesAt(WriteFailureMessage(expected, written, reason, freeHeap),
                     WrittenAt(expected), WrittenLead, written)
  {
    var head := WriteFailedPrefix + MismatchLead + Decimal.ToDecimal(expected);
    var tail := HeapLead + Decimal.ToDecimal(freeHeap) + HeapTail;
    MismatchLayout(expected, written, reason, freeHeap);
    Regroup(WriteFailedPrefix, MismatchLead, Decimal.ToDecimal(expected), WrittenLead,
            Decimal.ToDecimal(written), HeapLead, Decimal.ToDecimal(freeHeap), HeapTail);
    QuotedAfterLead(WriteFailureMessage(expected, written, reason, freeHeap), WrittenAt(expected),
                    head, WrittenLead, written, tail);
  }

  /** ... and the free heap right after "), Free heap: ". */
  lemma MismatchQuotesFreeHeap(expected: nat, written: nat, reason: string, freeHeap: nat)
    requires reason == "" || reason == "No Error"
    ensures QuotesAt(WriteFailureMessage(expected, written, reason, freeHeap),
                     FreeHeapAt(expected, written), HeapLead, freeHeap)
  {
    var head := WriteFailedPrefix + MismatchLead + Decimal.ToDecimal(expected) +
                WrittenLead + Decimal.ToDecimal(written);
    MismatchLayout(expected, written, reason, freeHeap);
    Regroup(WriteFailedPrefix, MismatchLead, Decimal.ToDecimal(expected), WrittenLead,
            Decimal.ToDecimal(written), HeapLead, Decimal.ToDecimal(freeHeap), HeapTail);
    QuotedAfterLead(WriteFailureMessage(expected, written, reason, freeHeap),
                    FreeHeapAt(expected, written), head, HeapLead, freeHeap, HeapTail);
  }

  /** Chunk events leave the configuration, the registered observers and any
      pending reboot alone. */
  predicate KeepsSettings(c: Controller, r: Controller) {
    r.authenticate == c.authenticate && r.username == c.username &&
    r.password == c.password && r.autoReboot == c.autoReboot &&
    r.rebootRequested == c.rebootRequested && r.rebootTime == c.rebootTime &&
    r.callbacks == c.callbacks
  }

  /** The notification an error observer receives for the current error, if
      one is registered. */
  function ErrorNotice(c: Controller, r: Controller): seq<Notification> {
    if c.callbacks.error then [ErrorRaised(r.lastError, r.lastErrorMessage)] else []
  }

  /** UPLOAD_FILE_START: reset the counter and the error store, notify the
      start observer, resolve the mode, run the size pre-check, and open the
      driver. A refused size never reaches `begin`; a failed `begin` is
      recorded but not aborted. The WRITE branch's first-chunk flag is not
      touched: the flag reset here is a different variable. */
  function OnFileStart(c: Controller, p: Platform, modeArg: string, totalSize: nat, reply: DriverReply): (r: Controller)
    ensures r.totalReceived == 0
    ensures r.firstWrite == c.firstWrite
    ensures KeepsSettings(c, r)
    ensures var m := ResolveMode(modeArg);
      && (!Fits(totalSize, Capacity(p, m)) ==>
            r.lastError == FileTooLarge && r.flash == c.flash)
      && (Fits(totalSize, Capacity(p, m)) ==>
            r.flash.calls == c.flash.calls + [BeginCall(Capacity(p, m), RegionFor(p, m))] &&
            r.flash.hasError == !reply.beginOk &&
            (reply.beginOk ==> r.lastError == NoError && r.lastErrorMessage == "") &&
            (!reply.beginOk ==> r.lastError == UpdateBeginFailed &&
                                r.lastErrorMessage == BeginFailedPrefix + reply.reason))
    ensures r.notices == c.notices + (if c.callbacks.start then [Started] else []) +
      (if r.lastError != NoError then ErrorNotice(c, r) else [])
  {
    var c1 := Fire(c.(totalReceived := 0, lastError := NoError, lastErrorMessage := ""), Started);
    match Admit(p, ResolveMode(modeArg), totalSize)
    case TooLarge(msg) => SetError(c1, FileTooLarge, msg)
    case Open(size, region) =>
      var c2 := c1.(flash := CallBegin(c1.flash, size, region, reply.beginOk));
      if reply.beginOk then c2
      else SetError(c2, UpdateBeginFailed, BeginFailedPrefix + reply.reason)
  }

  /** Whether a write event is the empty first chunk the handler rejects. */
  predicate EmptyFirstChunk(c: Controller, currentSize: nat) {
    c.firstWrite && currentSize == 0
  }

  /** UPLOAD_FILE_WRITE. The first write event the controller ever sees is
      rejected if empty: `InvalidFile`, one abort, no write. Any other chunk
      goes to the driver whatever the error store holds; a full write adds
      the chunk to the counter and notifies the progress observer, a short
      write records `UpdateWriteFailed` and aborts once, leaving the counter
      as it was. */
  function OnFileWrite(c: Controller, currentSize: nat, totalSize: nat, reply: DriverReply): (r: Controller)
    ensures !r.firstWrite
    ensures KeepsSettings(c, r)
    ensures EmptyFirstChunk(c, currentSize) ==>
      r.lastError == InvalidFile && r.lastErrorMessage == NoDataMessage &&
      r.flash.calls == c.flash.calls + [AbortCall] && r.flash.hasError &&
      r.totalReceived == c.totalReceived &&
      r.notices == c.notices + ErrorNotice(c, r)
    ensures !EmptyFirstChunk(c, currentSize) && reply.written == currentSize ==>
      r.totalReceived == c.totalReceived + currentSize &&
      r.lastError == c.lastError && r.lastErrorMessage == c.lastErrorMessage &&
      r.flash == Flash(c.flash.hasError, c.flash.calls + [WriteCall(currentSize)]) &&
      r.notices == c.notices +
        (if c.callbacks.progress then [Progress(r.totalReceived, totalSize)] else [])
    ensures !EmptyFirstChunk(c, currentSize) && reply.written != currentSize ==>
      r.lastError == UpdateWriteFailed &&
      r.lastErrorMessage == WriteFailureMessage(currentSize, reply.written, reply.reason, reply.freeHeap) &&
      r.flash.calls == c.flash.calls + [WriteCall(currentSize), AbortCall] && r.flash.hasError &&
      r.totalReceived == c.totalReceived &&
      r.notices == c.notices + ErrorNotice(c, r)
  {
    var c1 := c.(firstWrite := false);
    if EmptyFirstChunk(c, currentSize) then
      var c2 := SetError(c1, InvalidFile, NoDataMessage);
      c2.(flash := CallAbort(c2.flash))
    else
      var c2 := c1.(flash := CallWrite(c1.flash, currentSize, reply.written));
      if reply.written != currentSize then
        var msg := WriteFailureMessage(currentSize, reply.written, reply.reason, reply.freeHeap);
        var c3 := SetError(c2, UpdateWriteFailed, msg);
        c3.(flash := CallAbort(c3.flash))
      else
        var c3 := c2.(totalReceived := c2.totalReceived + currentSize);
        Fire(c3, Progress(c3.totalReceived, totalSize))
  }

  /** UPLOAD_FILE_END: finalise with verification. A failed `end` records
      `UpdateEndFailed` and issues no abort; the end observer is not called
      here. */
  function OnFileEnd(c: Controller, reply: DriverReply): (r: Controller)
    ensures KeepsSettings(c, r)
    ensures r.totalReceived == c.totalReceived && r.firstWrite == c.firstWrite
    ensures r.flash.calls == c.flash.calls + [EndCall(true)]
    ensures r.flash.hasError == (c.flash.hasError || !reply.endOk)
    ensures reply.endOk ==>
      r.lastError == c.lastError && r.lastErrorMessage == c.lastErrorMessage && r.notices == c.notices
    ensures !reply.endOk ==>
      r.lastError == UpdateEndFailed && r.lastErrorMessage == EndFailedPrefix + reply.reason &&
      r.notices == c.notices + ErrorNotice(c, r)
  {
    var c1 := c.(flash := CallEnd(c.flash, reply.endOk));
    if reply.endOk then c1
    else SetError(c1, UpdateEndFailed, EndFailedPrefix + reply.reason)
  }

  /** UPLOAD_FILE_ABORTED: the client went away. `NetworkError` is recorded
      and the driver is left alone. */
  function OnFileAborted(c: Controller): (r: Controller)
    ensures r.lastError == NetworkError && r.lastErrorMessage == AbortedMessage
    ensures r.flash == c.flash
    ensures r == c.(lastError := NetworkError, lastErrorMessage := AbortedMessage, notices := r.notices)
    ensures r.notices == c.notices + ErrorNotice(c, r)
  {
    SetError(c, NetworkError, AbortedMessage)
  }

  /** The chunk handler: one call per chunk event. */
  function Handle(c: Controller, p: Platform, ev: Event, reply: DriverReply): (r: Controller)
    ensures KeepsSettings(c, r)
    ensures |c.notices| <= |r.notices| && r.notices[..|c.notices|] == c.notices
    ensures |c.flash.calls| <= |r.flash.calls| && r.flash.calls[..|c.flash.calls|] == c.flash.calls
    ensures !ev.FileStart? ==> r.totalReceived >= c.totalReceived
  {
    match ev
    case FileStart(modeArg, totalSize) => OnFileStart(c, p, modeArg, totalSize, reply)
    case FileWrite(currentSize, totalSize) => OnFileWrite(c, currentSize, totalSize, reply)
    case FileEnd => OnFileEnd(c, reply)
    case FileAborted => OnFileAborted(c)
  }

  /** The completion handler. When authentication is on and the request is
      not authorised, the error store records `AuthFailed` and the client is
      challenged. Otherwise success is the driver's error flag alone (the
      error store is not consulted); a failure overwrites the error store
      with `UpdateEndFailed`; the body is "OK" or "FAIL", always with status
      200; the end observer is called once; and on success with auto reboot
      on, a reboot is armed for `now + 2000`, replacing any earlier time. */
  function Complete(c: Controller, authorized: bool, reason: string, now: nat): (r: Completion)
    ensures c.authenticate && !authorized ==>
      && r.response == AuthChallenge
      && LastError(r.controller) == AuthFailed
      && LastErrorMessage(r.controller) == UploadAuthMessage
      && r.controller.notices == c.notices + ErrorNotice(c, r.controller)
      && r.controller.rebootRequested == c.rebootRequested
      && r.controller.rebootTime == c.rebootTime
    ensures !(c.authenticate && !authorized) ==>
      var success := !c.flash.hasError;
      && r.response == PlainText(200, if success then OkBody else FailBody)
      && (success ==> r.controller.lastError == c.lastError &&
                      r.controller.lastErrorMessage == c.lastErrorMessage)
      && (!success ==> r.controller.lastError == UpdateEndFailed &&
                       r.controller.lastErrorMessage == UpdateFailedPrefix + reason)
      && r.controller.notices == c.notices +
           (if success then [] else ErrorNotice(c, r.controller)) +
           (if c.callbacks.end then [Ended(success)] else [])
      && r.controller.rebootRequested == (c.rebootRequested || (success && c.autoReboot))
      && r.controller.rebootTime == (if success && c.autoReboot then now + RebootDelay else c.rebootTime)
    ensures r.controller.flash == c.flash && r.controller.totalReceived == c.totalReceived
    ensures r.controller.firstWrite == c.firstWrite && r.controller.callbacks == c.callbacks
    ensures r.controller.autoReboot == c.autoReboot && r.controller.authenticate == c.authenticate
  {
    if c.authenticate && !authorized then
      Completion(SetError(c, AuthFailed, UploadAuthMessage), AuthChallenge)
    else
      var success := !c.flash.hasError;
      var c1 := if success then c else SetError(c, UpdateEndFailed, UpdateFailedPrefix + reason);
      var c2 := Fire(c1, Ended(success));
      var c3 := if success && c2.autoReboot
                then c2.(rebootRequested := true, rebootTime := now + RebootDelay)
                else c2;
      Completion(c3, PlainText(200, if success then OkBody else FailBody))
  }

  /** The handler of the web-interface page: an unauthorised request when
      authentication is on records `AuthFailed` and is challenged; any other
      request is served the page and changes nothing. */
  function ServeInterface(c: Controller, authorized: bool): (r: Completion)
    ensures c.authenticate && !authorized ==>
      && r.response == AuthChallenge
      && LastError(r.controller) == AuthFailed
      && LastErrorMessage(r.controller) == PageAuthMessage
      && r.controller.notices == c.notices + ErrorNotice(c, r.controller)
      && r.controller.flash == c.flash && r.controller.rebootRequested == c.rebootRequested
    ensures !(c.authenticate && !authorized) ==>
      r.response == WebInterface && r.controller == c
  {
    if c.authenticate && !authorized then
      Completion(SetError(c, AuthFailed, PageAuthMessage), AuthChallenge)
    else
      Completion(c, WebInterface)
  }
}
